=== FILE: README.md ===
# A verified model of the NewAiAgent orchestration pipeline

`execute.py` asks a text-generation service for a software architecture,
shows it, asks the user for approval, and then turns the proposal's
`file_scaffolding` into an `Output/` tree: it creates folders, asks the
service for the content of each file, one request per file, and writes
each reply to disk.

This project models the deterministic decisions around those external calls:

- **Scaffold walk** (`scaffold.dfy`, module `Scaffold`). The
  `file_scaffolding` value is handled in four shapes: an object of lists, an
  object of objects, a flat list, or anything else. The walk turns it into
  two things: the names handed to the create step directly under the root,
  and the ordered `(folder, filename)` generation list. An object is a
  sequence of members in insertion order, as a Python dict iterates.
  A list element that is not a string makes `str.rstrip` raise. That is
  modelled as a walk that stops (`crashed`).
- **Create step** (`agent.dfy`, `Agent.CreateFolderOrFile`). It works over an
  abstract filesystem (`filesystem.dfy`): a set of directory paths and a map
  from file paths to text. Paths are built by `posixpath.join`.
  - An existing target is left alone.
  - A name containing `.` is requested and saved.
  - Any other name becomes a directory.
- **Approval gate** (`approval.dfy`). An answer line is trimmed with
  Python's whitespace set and lower-cased. `yes`/`y` approves, `no`/`n`
  declines, and anything else asks again. The first decisive line wins.
- **Per-file loop and `main`** (`agent.dfy`). The service is a script of
  replies: each request takes the next `Option<string>` and is appended to a
  request log. A missing or empty reply skips only that file. A usable reply
  is written when the file can be opened, replacing any earlier content.
  An open that fails (the parent folder is missing, or the path is a
  directory) is only reported, and the file is skipped. `main` writes
  nothing unless the architecture is a non-empty object and the user
  approves it.

Behaviour of the code worth knowing:

- A flat-list name without a dot (`"config"`) is still requested and written
  as a file. It is not created as a folder.
- Writes are not create-only. A successful reply overwrites the file, and a
  second run rewrites files that already exist.
- A top-level key containing a dot (`{"README.md": []}`) goes through the
  request branch of the create step. That branch saves the reply with
  `save_file_to_output(OUTPUT_PATH, key)`, so it lands in
  `Output/Output/README.md`. The path that was checked stays absent, so the
  step is not idempotent for such keys. `Agent.DottedKeySavedOneLevelDeeper`
  and `Agent.DottedKeyRequestedAgain` state this behaviour.
- Files listed under a key containing a dot (`{"v1.0": ["main.py"]}`) are
  never written, unless `Output/v1.0` is already a directory before the
  run (the program never creates it itself). The create step for `v1.0`
  takes the request branch instead of making the folder, so `Output/v1.0`
  stays no directory and the open of `Output/v1.0/main.py` fails. Key and
  file names here are taken without separators. `Agent.DottedFolderFileNotWritten`
  states this.

Several crashes that the source does not catch become explicit outcomes of
`Agent.Main`:
- `NotAnObject`: the architecture is a true value but not an object, so the
  display's `.get` raises.
- `ScaffoldError`: a list in the scaffold holds a non-string.
- `InputClosed`: the console ends before a decisive answer, where `input()`
  raises `EOFError`.

## Model

| member | source | states |
|---|---|---|
| Json.Get | execute.py:140 | `dict.get(key, default)`: the value of the first member with that key, and the default exactly when there is no such member |
| Text.RStripSlash | execute.py:150 | `rstrip("/")` leaves a prefix of its input, removes only `/` characters, and never leaves a trailing `/` |
| Text.RStripSlashIdempotent | execute.py:160 | stripping slashes twice is the same as stripping once |
| Text.RStripSlashIgnoresSlashes | execute.py:150 | a name followed by any number of slashes strips to the same result as the bare name |
| Text.EndCutSpec | execute.py:112 | the trailing-whitespace cut of `strip`: everything after it is whitespace, and the character before it is not |
| Text.StartCutSpec | execute.py:112 | the leading-whitespace cut of `strip`: everything before it is whitespace, and the character at it is not |
| Text.StripPadding | execute.py:112 | `Text.Strip`, the model of `strip`, gives back exactly the core: for any whitespace padding on either side of a string with no whitespace at its ends, the result is that string |
| Text.StripStripped | execute.py:112 | a string with no whitespace at either end is left unchanged by `strip` |
| Text.EndCutUnique | execute.py:112 | the trailing cut is the only index with its defining property |
| Text.StartCutUnique | execute.py:112 | the leading cut is the only index with its defining property |
| Approval.ClassifyMeaning | execute.py:112-118 | `Approval.Classify` approves an answer exactly when, after stripping, it equals `yes` or `y` ignoring case, and declines it exactly when it equals `no` or `n` ignoring case |
| Approval.LowerMatchesToken | execute.py:112-113 | comparing the lower-cased answer with a lower-case token is a case-insensitive comparison |
| Approval.ClassifyIgnoresCase | execute.py:112 | two answers that differ only in letter case are classified alike |
| Approval.ClassifyIgnoresPadding | execute.py:112 | whitespace around an answer does not change its classification |
| Approval.VerdictFirstDecisive | execute.py:111-118 | `Approval.Verdict`, the decision a run of answer lines leads to, gives no decision exactly when every line re-prompts; otherwise the first decisive line decides, and approval means that line approves |
| Approval.GetUserApproval | execute.py:111-118 | the prompt loop returns the same decision as `Approval.Verdict` and stops right after the first decisive line; it reads every line when none decides |
| Approval.ClassifyExamples | execute.py:112-118 | `" Yes\n"` approves, `"N"` declines, `"yeah"` re-prompts |
| Approval.ApprovalExample | execute.py:111-118 | in `["maybe", "NO", "yes"]` the `NO` decides, and the later `yes` is never read |
| Approval.UndecidedExample | execute.py:111-118 | lines that never decide give no decision |
| Scaffold.ListEntriesSpec | execute.py:147-151 | the walk stops exactly when a list holds a non-string; otherwise it gives one entry per element, in list order, each `(folder, name with trailing slashes removed)` |
| Scaffold.Keys | execute.py:153-154 | the names of a nested object's members, in insertion order |
| Scaffold.WalkMemberSpec | execute.py:145-154 | a member always creates its key. A list value adds its names in order. An object value only creates its inner keys directly under the root. Any other value adds nothing |
| Scaffold.WalkMembersCrash | execute.py:147-151 | `Scaffold.WalkMembers`, the walk over an object's members, stops exactly when some member's list holds a non-string |
| Scaffold.WalkScaffold | execute.py:144-161 | an object is walked member by member. A flat list gives `("", stripped name)` for each element, in order, with no dot filtering and no create calls. Any other value gives nothing |
| Scaffold.WalkMembersAppend | execute.py:144-151 | walking two runs of members in sequence is walking their concatenation, so creates and entries follow key order |
| Scaffold.AppendCreates | execute.py:145-146 | the create calls of a concatenation are the create calls of its parts, in order |
| Scaffold.AppendEntries | execute.py:147-151 | the generation list of a concatenation is the lists of its parts, in order |
| Scaffold.AppendCrash | execute.py:147-151 | after a run that did not stop, only the later members decide whether the walk stops |
| Scaffold.WalkMembersCount | execute.py:144-151 | without a bad list, the generation list has as many entries as there are listed names |
| Scaffold.WalkMembersEntries | execute.py:144-151 | `Scaffold.WalkMembers` generates an entry if and only if the entry's folder is a key whose list holds a name that strips to its filename |
| Scaffold.NoListsNoEntries | execute.py:152-154 | members whose values are not lists add no entries |
| Scaffold.MappingExample | execute.py:144-151 | `{"src": ["main.py", "utils.py/"], "docs": []}` creates `src` and `docs` and generates `("src","main.py")` then `("src","utils.py")` |
| Scaffold.FlatListExample | execute.py:157-161 | `["readme.md", "config"]` requests both names as files in the root folder |
| FileSystem.Join | execute.py:124 | `os.path.join` ends with its second argument; a relative second argument keeps the first as a prefix, joined by one separator |
| FileSystem.ParentOfJoin | execute.py:218-220 | a file name without separators joined to a folder path has that folder as its parent, the folder `open` needs |
| FileSystem.ParentAfterSlash | execute.py:218-220 | a file name joined after a trailing separator has as its parent the folder that separator closes |
| FileSystem.Write | execute.py:219-224 | when the open succeeds (a non-empty path with no trailing separator, not a directory, whose parent folder exists) the file holds exactly the new content, whatever it held before. A failing open changes nothing. No other file changes, and no folder |
| Agent.CreateFolderOrFile | execute.py:120-135 | an existing target changes nothing and issues no request. A dotless name adds exactly its directory, with no request and no file change. A dotted name issues its request first and adds at most the two folders its save creates. Nothing is ever removed |
| Agent.SaveFileToOutput | execute.py:210-224 | the file at `Output/<folder>/<filename>` ends up holding the content whenever the open can succeed. For a dotless folder, no request is issued, the folder is created only if it was missing, no other file changes, and a failing open changes no file |
| Agent.ParentOfFilePath | execute.py:215-218 | a plain file name saved into a folder lands directly inside the folder the create step made, and its path is longer than the folder's |
| Agent.SaveWritesFile | execute.py:215-221 | for a dotless folder whose path is no file, a plain file name whose path is no directory is written with the content |
| Agent.ProcessEntry | execute.py:164-170 | the entry is requested first. A missing or empty reply leaves the filesystem untouched. A usable reply is written to the entry's path when the open can succeed |
| Agent.ProcessEntryPlain | execute.py:164-170 | for a dotless folder one pass logs exactly one request, consumes exactly one reply, and changes no file but the entry's own |
| Agent.ProcessEntriesReplies | execute.py:164-170 | with dotless folders, the loop consumes one reply per entry, whether the reply is usable or not |
| Agent.ProcessEntriesAppend | execute.py:164-170 | running the loop over two lists in turn is running it over their concatenation |
| Agent.ProcessEntriesKeepsFile | execute.py:164-170 | with dotless entry folders, a file that no later entry names keeps its content to the end of the loop, whether the later replies fail or succeed |
| Agent.EntryWritesReply | execute.py:164-170 | for a dotless folder and a plain file name, one pass with a usable reply writes exactly that reply to the entry's file, when the folder path is no file and the file path no directory |
| Agent.EntryKeepsItsReply | execute.py:164-170 | entry `k` receives the `k`-th reply, and at the end of the loop its file holds that reply, when folders are dotless and no later entry names the same file; failed requests for other entries neither shift the replies nor undo the write |
| Agent.GrowsFromPrefix | execute.py:164-170 | the state after the first `k` entries only grows into the final state |
| Agent.EntryWritesItsReply | execute.py:164-170 | with dotless folders, a usable `k`-th reply and a plain file name, the pass for entry `k` takes the `k`-th reply and writes it to the entry's file when the open can succeed (the folder path is no file and the file path no directory) |
| Agent.KeepsFromPrefix | execute.py:164-170 | with dotless entry folders, a file present after the first `k` entries keeps its content to the end when no later entry names it |
| Agent.ProcessEntriesSplit | execute.py:164-170 | the loop over a list is the loop over its first `k` entries followed by the loop over the rest |
| Agent.ProcessEntriesStep | execute.py:164-170 | the state after `k + 1` entries is one more pass after the state after `k` entries |
| Agent.ProcessEntriesRequests | execute.py:164-170 | `Agent.ProcessEntries`, the per-file loop taken entry by entry, requests every entry exactly once, in list order, whatever the replies are, when no entry folder has a dot |
| Agent.ProcessEntriesGrows | execute.py:164-170 | the loop never removes a folder, a file or a logged request |
| Agent.RequestAll | execute.py:164-170 | the imperative loop computes the same world as the entry-by-entry fold, never removes a folder, file or logged request, and, when no entry folder has a dot, issues exactly the entries' requests |
| Agent.CreateAllGrows | execute.py:146 | the create calls never remove anything |
| Agent.CreateAllMakesFolders | execute.py:146 | after `Agent.CreateAll`, the create calls of the walk in order, every dotless name exists directly under the root. This includes a nested object's keys, which are not nested under their parent key |
| Agent.CreateAllMakesFolder | execute.py:146 | the create call for a dotless name makes it exist under the root, and the later create calls keep it |
| Agent.CreateAllPlainNoRequests | execute.py:154 | creating dotless names issues no request |
| Agent.Generate | execute.py:137-170 | generation stops with an error exactly when the walk stops. The output root exists afterwards. Nothing is removed |
| Agent.Main | execute.py:263-287 | the run ends without an architecture exactly when the reply is missing or false under `Json.Truthy`, Python's truth test. It ends in a crash when the value is true but not an object. It declines, or ends without a decision, according to the first decisive answer. In all these cases the world is unchanged. Files are generated only after an approved, non-empty object |
| Agent.CreateTwice | execute.py:120-135 | creating the same dotless name twice leaves the world as creating it once |
| Agent.DottedItemIsNoFolder | execute.py:128-135 | a dotted name created under the root never becomes a directory |
| Agent.DottedTargetIsNotNestedRoot | execute.py:124-131 | a dotted name's target under the root is never `Output/Output`, the one folder its save may create |
| Agent.RootPaths | execute.py:124 | a relative name is checked at `Output/<name>` but saved as a file of folder `Output` at `Output/Output/<name>` |
| Agent.DottedKeySavedOneLevelDeeper | execute.py:128-131 | a dotted top-level key's usable reply is written to `Output/Output/<key>` (when that path can be opened), and `Output/<key>` stays absent |
| Agent.DottedKeyRequestedAgain | execute.py:120-131 | a second create step for such a key requests the content again |
| Agent.DottedFolderFileNotWritten | execute.py:210-224 | for a dotted folder and a file name, both without separators, when `Output/<folder>` is not already a directory (in either spelling): saving into the folder leaves `Output/<folder>` no directory, so the open fails and only the create step's own save changes a file |
| Agent.DottedFolderIsNoDir | execute.py:120-135 | for a dotted folder name without separators, when `Output/<folder>` is not already a directory (in either spelling), the create step leaves it no directory |
| Agent.DottedFolderPaths | execute.py:215-218 | a dotted folder without separators is checked at `Output/<folder>`, which is the parent of every plain file name (one without separators) saved into it |
| Agent.DottedDirIsNotNestedRoot | execute.py:124-131 | neither `Output/<folder>` nor `Output/<folder>/` is `Output/Output`, the one folder the create step's save may add |
| Agent.GenerateRequestsEachEntryOnce | execute.py:144-170 | when no created name or entry folder has a dot, a completed generation requests each entry exactly once, in order, and nothing else |

## Left out

- The service calls (`ask_chatgpt_for_architecture`, `ask_chatgpt_for_file_content`) are not modelled. The architecture reply is a parameter of `Agent.Main` (`None` for a failed request or a reply that is not JSON). File replies are a script in the world. Prompt text and the model parameters are not modelled.
- `ask_chatgpt_for_one_file_content` is left out: it duplicates the file-content request and is never called.
- `json.loads` is left out. The architecture arrives already parsed as a `Json.Value`. Numbers are reals, so `NaN` and `Infinity` are not covered. An object's member names are assumed distinct, as the keys of the dict `json.loads` returns are. A document that repeats a key (Python keeps the first position and the last value) is not covered.
- `get_software_description_from_user`, `display_architecture_proposal` and every status `print` are presentation. The one effect of the display that matters is kept: it raises on a true non-object (`NotAnObject`).
- The API-key setup (execute.py:15) is environment, not logic.
- Real filesystem semantics are left out:
  - `os.makedirs` records only the target path, not its missing parents.
  - Its errors are not modelled, for example when a parent is a file.
  - Because `os.makedirs` records only its target, a folder that exists only as an intermediate of a nested `makedirs` is seen as missing by a later `open`.
  - `open` fails for a missing parent folder, a directory or a trailing separator. Other failures (permissions, encoding) are not modelled.
  - Paths are compared as strings, with no normalisation of `//`, `..` or trailing slashes.
- `str.lower` is modelled on ASCII letters only. `str.strip` uses Python's full whitespace set.
- Agent.ProcessEntriesRequests: stated only when no entry folder contains a dot. Saving into a dotted folder adds requests of its own through the create step, and their exact order is not stated.
- Agent.GenerateRequestsEachEntryOnce: stated only when no created name or entry folder contains a dot, for the same reason.
- Agent.CreateFolderOrFile: for a dotted name, only the first request and the set of folders that may appear are stated. The full effect follows from `Agent.SaveFileToOutput`.

=== FILE: agent.dfy ===
/**
 The orchestration of execute.py: the idempotent create step, saving a
 reply, the per-file request loop and the gating in `main`.

 The text service is a script of replies: every request takes the next
 reply (`None` for a failed request) and is appended to a request log; an
 exhausted script answers `None`. Prompt text is not modelled: a request
 is identified by the (folder, filename) pair it is made for.
 */
module Agent {
  import opened Base
  import opened Json
  import opened Text
  import opened Scaffold
  import opened FileSystem
  import Approval

  /** A content request for `filename` in `folder`. */
  datatype Request = Request(folder: string, filename: string)

  /** Everything a run can change or consume. */
  datatype World = World(fs: Fs, log: seq<Request>, replies: seq<Option<string>>)

  /** The reply the next request will get. */
  function NextReply(w: World): Option<string>
  {
    if w.replies == [] then None else w.replies[0]
  }

  /** `ask_chatgpt_for_file_content(folder, filename)`: one request; the
      filesystem is untouched. */
  function Ask(w: World, folder: string, filename: string): (r: (Option<string>, World))
    ensures r.0 == NextReply(w)
    ensures r.1.fs == w.fs && r.1.log == w.log + [Request(folder, filename)]
    ensures |r.1.replies| == if w.replies == [] then 0 else |w.replies| - 1
  {
    if w.replies == [] then (None, w.(log := w.log + [Request(folder, filename)]))
    else (w.replies[0], w.(log := w.log + [Request(folder, filename)], replies := w.replies[1..]))
  }

  /** `if file_content:` -- a reply counts only when present and non-empty. */
  predicate Usable(reply: Option<string>)
  {
    reply.Some? && reply.value != ""
  }

  /** The path `create_folder_or_file(path, item)` checks and creates. */
  function Target(path: string, item: string): string
  {
    if item == "" then path else Join(path, item)
  }

  /** Where `save_file_to_output(folder, filename, _)` writes. */
  function FilePath(folder: string, filename: string): string
  {
    Join(Join(OutputRoot, folder), filename)
  }

  /** The root name holds no dot, so the create/save recursion is at most
      two saves deep. */
  lemma RootHasNoDot()
    ensures !HasDot(OutputRoot)
  {
    assert OutputRoot == ['O', 'u', 't', 'p', 'u', 't'];
  }

  function CreateRank(path: string, item: string): nat
  {
    if HasDot(item) then (if HasDot(path) then 6 else 3) else 0
  }

  function SaveRank(folder: string): nat
  {
    if HasDot(folder) then 4 else 1
  }

  /** The world only grows: nothing is deleted, the log is only extended. */
  predicate Grows(w: World, r: World)
  {
    && w.fs.dirs <= r.fs.dirs
    && w.fs.files.Keys <= r.fs.files.Keys
    && w.log <= r.log
  }

  /** `create_folder_or_file(path, item)` (lines 120-135). An existing target
      is left alone; a name with a dot is requested and saved; any other
      name becomes a directory. */
  function CreateFolderOrFile(w: World, path: string, item: string): (r: World)
    decreases CreateRank(path, item)
    ensures Grows(w, r)
    ensures Exists(w.fs, Target(path, item)) ==> r == w
    ensures !Exists(w.fs, Target(path, item)) && !HasDot(item) ==>
      && r.fs.dirs == w.fs.dirs + {Target(path, item)}
      && r.fs.files == w.fs.files
      && r.log == w.log && r.replies == w.replies
    ensures !Exists(w.fs, Target(path, item)) && HasDot(item) ==>
      |w.log| < |r.log| && r.log[|w.log|] == Request(path, item)
    ensures HasDot(item) ==>
      r.fs.dirs <= w.fs.dirs + {Target(OutputRoot, path), Target(OutputRoot, OutputRoot)}
  {
    var full := Target(path, item);
    if Exists(w.fs, full) then w
    else if HasDot(item) then
      RootHasNoDot();
      var (reply, w1) := Ask(w, path, item);
      assert w1.log[|w.log|] == Request(path, item);
      if Usable(reply) then
        var r := SaveFileToOutput(w1, path, item, reply.value);
        assert r.log[|w.log|] == w1.log[|w.log|];
        r
      else w1
    else w.(fs := MakeDirs(w.fs, full))
  }

  /** `save_file_to_output(folder, filename, content)` (lines 210-224): the
      folder goes through the create step, then the file is opened and
      written, replacing whatever it held; a failing open is only reported. */
  function SaveFileToOutput(w: World, folder: string, filename: string, content: string): (r: World)
    decreases SaveRank(folder)
    ensures Grows(w, r)
    ensures Writable(r.fs, FilePath(folder, filename)) ==>
      FilePath(folder, filename) in r.fs.files && r.fs.files[FilePath(folder, filename)] == content
    ensures !HasDot(folder) ==>
      && r.log == w.log && r.replies == w.replies
      && r.fs.dirs == w.fs.dirs + (if Exists(w.fs, Target(OutputRoot, folder)) then {} else {Target(OutputRoot, folder)})
      && r.fs.files - {FilePath(folder, filename)} == w.fs.files - {FilePath(folder, filename)}
      && (!Writable(r.fs, FilePath(folder, filename)) ==> r.fs.files == w.fs.files)
    ensures HasDot(folder) ==> r.fs.dirs <= w.fs.dirs + {Target(OutputRoot, OutputRoot)}
  {
    RootHasNoDot();
    var w1 := CreateFolderOrFile(w, OutputRoot, folder);
    w1.(fs := Write(w1.fs, FilePath(folder, filename), content))
  }

  /** One pass of the request loop (lines 164-170): request the entry; a
      usable reply is saved, anything else skips the entry without a write. */
  function ProcessEntry(w: World, e: Entry): (r: World)
    ensures Grows(w, r)
    ensures |w.log| < |r.log| && r.log[|w.log|] == Request(e.folder, e.filename)
    ensures !Usable(NextReply(w)) ==>
      r.fs == w.fs && r.log == w.log + [Request(e.folder, e.filename)]
    ensures Usable(NextReply(w)) && Writable(r.fs, FilePath(e.folder, e.filename)) ==>
      FilePath(e.folder, e.filename) in r.fs.files && r.fs.files[FilePath(e.folder, e.filename)] == NextReply(w).value
  {
    var (reply, w1) := Ask(w, e.folder, e.filename);
    if Usable(reply) then
      var r := SaveFileToOutput(w1, e.folder, e.filename, reply.value);
      assert r.log[|w.log|] == w1.log[|w.log|];
      r
    else w1
  }

  /** For a folder without a dot, one pass makes exactly one request, takes
      exactly one reply, and touches no file but its own. */
  lemma ProcessEntryPlain(w: World, e: Entry)
    requires !HasDot(e.folder)
    ensures var r := ProcessEntry(w, e);
      && r.log == w.log + [Request(e.folder, e.filename)]
      && r.replies == (if w.replies == [] then [] else w.replies[1..])
      && r.fs.files - {FilePath(e.folder, e.filename)} == w.fs.files - {FilePath(e.folder, e.filename)}
  {
    var (reply, w1) := Ask(w, e.folder, e.filename);
    if Usable(reply) {
      var r := SaveFileToOutput(w1, e.folder, e.filename, reply.value);
      assert r.fs.files - {FilePath(e.folder, e.filename)} == w1.fs.files - {FilePath(e.folder, e.filename)};
    }
  }

  /** The request loop over a generation list, entry by entry. */
  function ProcessEntries(w: World, entries: seq<Entry>): World
  {
    if entries == [] then w
    else ProcessEntry(ProcessEntries(w, entries[..|entries| - 1]), entries[|entries| - 1])
  }

  /** The requests a generation list stands for, in order. */
  function Requests(entries: seq<Entry>): (rs: seq<Request>)
    ensures |rs| == |entries|
    ensures forall i :: 0 <= i < |entries| ==> rs[i] == Request(entries[i].folder, entries[i].filename)
  {
    seq(|entries|, i requires 0 <= i < |entries| => Request(entries[i].folder, entries[i].filename))
  }

  /** No folder of the list holds a dot. */
  predicate PlainFolders(entries: seq<Entry>)
  {
    forall i :: 0 <= i < |entries| ==> !HasDot(entries[i].folder)
  }

  /** Every entry is requested exactly once, in list order, whatever the
      replies: a failed reply for one entry does not stop the others. (A
      folder with a dot would add a request of its own when saving.) */
  lemma {:induction false} ProcessEntriesRequests(w: World, entries: seq<Entry>)
    requires PlainFolders(entries)
    ensures ProcessEntries(w, entries).log == w.log + Requests(entries)
  {
    if entries != [] {
      var init, last := entries[..|entries| - 1], entries[|entries| - 1];
      var prev := ProcessEntries(w, init);
      assert ProcessEntries(w, entries).log == prev.log + [Request(last.folder, last.filename)] by {
        assert ProcessEntries(w, entries) == ProcessEntry(prev, last);
        ProcessEntryPlain(prev, last);
      }
      assert prev.log == w.log + Requests(init) by {
        ProcessEntriesRequests(w, init);
      }
      RequestsSnoc(entries);
    }
  }

  lemma RequestsSnoc(entries: seq<Entry>)
    requires entries != []
    ensures var last := entries[|entries| - 1];
      Requests(entries) == Requests(entries[..|entries| - 1]) + [Request(last.folder, last.filename)]
  {
  }

  /** Every run of the loop only adds to the world. */
  lemma {:induction false} ProcessEntriesGrows(w: World, entries: seq<Entry>)
    ensures Grows(w, ProcessEntries(w, entries))
  {
    if entries != [] {
      ProcessEntriesGrows(w, entries[..|entries| - 1]);
    }
  }

  /** With plain folders each entry takes exactly one reply: after the
      loop, the script has moved on by one reply per entry. */
  lemma {:induction false} ProcessEntriesReplies(w: World, entries: seq<Entry>)
    requires PlainFolders(entries) && |entries| <= |w.replies|
    ensures ProcessEntries(w, entries).replies == w.replies[|entries|..]
  {
    if entries != [] {
      var init, last := entries[..|entries| - 1], entries[|entries| - 1];
      var prev := ProcessEntries(w, init);
      assert ProcessEntries(w, entries) == ProcessEntry(prev, last);
      ProcessEntriesReplies(w, init);
      ProcessEntryPlain(prev, last);
      assert prev.replies[1..] == w.replies[|entries|..];
    }
  }

  /** Running the loop over two lists in turn is running it over their
      concatenation. */
  lemma {:induction false} ProcessEntriesAppend(w: World, a: seq<Entry>, b: seq<Entry>)
    ensures ProcessEntries(w, a + b) == ProcessEntries(ProcessEntries(w, a), b)
  {
    if b == [] {
      assert a + b == a;
    } else {
      var init := b[..|b| - 1];
      assert (a + b)[..|a + b| - 1] == a + init;
      assert (a + b)[|a + b| - 1] == b[|b| - 1];
      ProcessEntriesAppend(w, a, init);
    }
  }

  /** A file no later entry writes to keeps its content to the end of the
      loop, whether the later replies fail or succeed. */
  lemma {:induction false} ProcessEntriesKeepsFile(w: World, entries: seq<Entry>, p: string)
    requires PlainFolders(entries)
    requires forall j :: 0 <= j < |entries| ==> FilePath(entries[j].folder, entries[j].filename) != p
    requires p in w.fs.files
    ensures p in ProcessEntries(w, entries).fs.files
    ensures ProcessEntries(w, entries).fs.files[p] == w.fs.files[p]
  {
    if entries != [] {
      var init, last := entries[..|entries| - 1], entries[|entries| - 1];
      var prev := ProcessEntries(w, init);
      assert ProcessEntries(w, entries) == ProcessEntry(prev, last);
      ProcessEntriesKeepsFile(w, init, p);
      ProcessEntryPlain(prev, last);
      var q := FilePath(last.folder, last.filename);
      assert p in prev.fs.files - {q};
    }
  }

  /** One entry with a usable reply and a plain file name writes exactly that
      reply to its file, when its folder's path is no file and the file's
      path is no directory. */
  lemma EntryWritesReply(w: World, e: Entry)
    requires !HasDot(e.folder) && e.filename != [] && '/' !in e.filename
    requires Usable(NextReply(w))
    requires Target(OutputRoot, e.folder) !in w.fs.files
    requires FilePath(e.folder, e.filename) !in w.fs.dirs && FilePath(e.folder, e.filename) + "/" !in w.fs.dirs
    ensures FilePath(e.folder, e.filename) in ProcessEntry(w, e).fs.files
    ensures ProcessEntry(w, e).fs.files[FilePath(e.folder, e.filename)] == NextReply(w).value
  {
    var (reply, w1) := Ask(w, e.folder, e.filename);
    SaveWritesFile(w1, e.folder, e.filename, reply.value);
  }

  /** The reply for the entry at `k` is the `k`-th reply of the script, and
      it is what that entry's file holds at the end of the loop: a failed
      request for another entry neither shifts the replies nor undoes the
      write. The conditions are that every folder is plain, no later entry
      names the same file, the name is a plain file name, and at the end the
      folder's path is no file and the file's path no directory. */
  lemma EntryKeepsItsReply(w: World, entries: seq<Entry>, k: nat)
    requires PlainFolders(entries) && k < |entries| <= |w.replies|
    requires Usable(w.replies[k])
    requires entries[k].filename != [] && '/' !in entries[k].filename
    requires forall j :: k < j < |entries| ==>
      FilePath(entries[j].folder, entries[j].filename) != FilePath(entries[k].folder, entries[k].filename)
    requires Target(OutputRoot, entries[k].folder) !in ProcessEntries(w, entries).fs.files
    requires FilePath(entries[k].folder, entries[k].filename) !in ProcessEntries(w, entries).fs.dirs
    requires FilePath(entries[k].folder, entries[k].filename) + "/" !in ProcessEntries(w, entries).fs.dirs
    ensures FilePath(entries[k].folder, entries[k].filename) in ProcessEntries(w, entries).fs.files
    ensures ProcessEntries(w, entries).fs.files[FilePath(entries[k].folder, entries[k].filename)] == w.replies[k].value
  {
    GrowsFromPrefix(w, entries, k);
    EntryWritesItsReply(w, entries, k);
    KeepsFromPrefix(w, entries, k + 1, FilePath(entries[k].folder, entries[k].filename));
  }

  /** The state after the first `k` entries grows into the final state. */
  lemma GrowsFromPrefix(w: World, entries: seq<Entry>, k: nat)
    requires k <= |entries|
    ensures Grows(ProcessEntries(w, entries[..k]), ProcessEntries(w, entries))
  {
    ProcessEntriesSplit(w, entries, k);
    ProcessEntriesGrows(ProcessEntries(w, entries[..k]), entries[k..]);
  }

  /** The `k`-th pass takes the `k`-th reply and writes it to its file. */
  lemma EntryWritesItsReply(w: World, entries: seq<Entry>, k: nat)
    requires PlainFolders(entries) && k < |entries| <= |w.replies|
    requires Usable(w.replies[k])
    requires entries[k].filename != [] && '/' !in entries[k].filename
    requires Target(OutputRoot, entries[k].folder) !in ProcessEntries(w, entries[..k]).fs.files
    requires FilePath(entries[k].folder, entries[k].filename) !in ProcessEntries(w, entries[..k]).fs.dirs
    requires FilePath(entries[k].folder, entries[k].filename) + "/" !in ProcessEntries(w, entries[..k]).fs.dirs
    ensures FilePath(entries[k].folder, entries[k].filename) in ProcessEntries(w, entries[..k + 1]).fs.files
    ensures ProcessEntries(w, entries[..k + 1]).fs.files[FilePath(entries[k].folder, entries[k].filename)] == w.replies[k].value
  {
    var before := ProcessEntries(w, entries[..k]);
    PlainPrefix(entries, k);
    ProcessEntriesReplies(w, entries[..k]);
    ProcessEntriesStep(w, entries, k);
    EntryWritesReply(before, entries[k]);
  }

  /** The state after `k + 1` entries is one more pass after `k` entries. */
  lemma ProcessEntriesStep(w: World, entries: seq<Entry>, k: nat)
    requires k < |entries|
    ensures ProcessEntries(w, entries[..k + 1]) == ProcessEntry(ProcessEntries(w, entries[..k]), entries[k])
  {
    assert entries[..k + 1][..k] == entries[..k];
  }

  /** The first `k` entries of a list with plain folders have plain folders. */
  lemma PlainPrefix(entries: seq<Entry>, k: nat)
    requires PlainFolders(entries) && k <= |entries|
    ensures PlainFolders(entries[..k])
  {
    forall j | 0 <= j < k ensures !HasDot(entries[..k][j].folder) {
      assert entries[..k][j] == entries[j];
    }
  }

  /** A file present after the first `k` entries keeps its content to the
      end when no later entry names it. */
  lemma KeepsFromPrefix(w: World, entries: seq<Entry>, k: nat, p: string)
    requires PlainFolders(entries) && k <= |entries|
    requires forall j :: k <= j < |entries| ==> FilePath(entries[j].folder, entries[j].filename) != p
    requires p in ProcessEntries(w, entries[..k]).fs.files
    ensures p in ProcessEntries(w, entries).fs.files
    ensures ProcessEntries(w, entries).fs.files[p] == ProcessEntries(w, entries[..k]).fs.files[p]
  {
    ProcessEntriesSplit(w, entries, k);
    SuffixAvoids(entries, k, p);
    ProcessEntriesKeepsFile(ProcessEntries(w, entries[..k]), entries[k..], p);
  }

  /** The loop over a list is the loop over its first `k` entries followed
      by the loop over the rest. */
  lemma ProcessEntriesSplit(w: World, entries: seq<Entry>, k: nat)
    requires k <= |entries|
    ensures ProcessEntries(w, entries) == ProcessEntries(ProcessEntries(w, entries[..k]), entries[k..])
  {
    assert entries[..k] + entries[k..] == entries;
    ProcessEntriesAppend(w, entries[..k], entries[k..]);
  }

  /** The entries from `k` on have plain folders and avoid `p`. */
  lemma SuffixAvoids(entries: seq<Entry>, k: nat, p: string)
    requires PlainFolders(entries) && k <= |entries|
    requires forall j :: k <= j < |entries| ==> FilePath(entries[j].folder, entries[j].filename) != p
    ensures PlainFolders(entries[k..])
    ensures forall j :: 0 <= j < |entries[k..]| ==> FilePath(entries[k..][j].folder, entries[k..][j].filename) != p
  {
    forall j | 0 <= j < |entries[k..]|
      ensures !HasDot(entries[k..][j].folder)
      ensures FilePath(entries[k..][j].folder, entries[k..][j].filename) != p
    {
      assert entries[k..][j] == entries[k + j];
    }
  }

  /** The loop of lines 164-170 as written, one request per iteration. */
  method RequestAll(w: World, entries: seq<Entry>) returns (r: World)
    ensures Grows(w, r)
    ensures r == ProcessEntries(w, entries)
    ensures PlainFolders(entries) ==> r.log == w.log + Requests(entries)
  {
    r := w;
    var i := 0;
    while i < |entries|
      invariant i <= |entries|
      invariant r == ProcessEntries(w, entries[..i])
    {
      assert entries[..i + 1][..i] == entries[..i];
      r := ProcessEntry(r, entries[i]);
      i := i + 1;
    }
    assert entries[..i] == entries;
    ProcessEntriesGrows(w, entries);
    if PlainFolders(entries) {
      ProcessEntriesRequests(w, entries);
    }
  }

  /** The create calls the walk makes, each directly under the root. */
  function CreateAll(w: World, items: seq<string>): World
  {
    if items == [] then w
    else CreateFolderOrFile(CreateAll(w, items[..|items| - 1]), OutputRoot, items[|items| - 1])
  }

  lemma {:induction false} CreateAllGrows(w: World, items: seq<string>)
    ensures Grows(w, CreateAll(w, items))
  {
    if items != [] {
      CreateAllGrows(w, items[..|items| - 1]);
    }
  }

  /** A path that exists stays existing in a world that grows from it. */
  lemma ExistsStays(w: World, r: World, p: string)
    requires Grows(w, r) && Exists(w.fs, p)
    ensures Exists(r.fs, p)
  {
  }

  /** A name without a dot exists under the root once it has been created. */
  lemma CreatedExists(w: World, item: string)
    requires !HasDot(item)
    ensures Exists(CreateFolderOrFile(w, OutputRoot, item).fs, Target(OutputRoot, item))
  {
  }

  /** After the create calls every name without a dot exists directly under
      the root (a nested object's keys included, not under their parent key). */
  lemma CreateAllMakesFolders(w: World, items: seq<string>)
    ensures forall i :: 0 <= i < |items| && !HasDot(items[i]) ==>
      Exists(CreateAll(w, items).fs, Target(OutputRoot, items[i]))
  {
    forall i | 0 <= i < |items| && !HasDot(items[i])
      ensures Exists(CreateAll(w, items).fs, Target(OutputRoot, items[i]))
    {
      CreateAllMakesFolder(w, items, i);
    }
  }

  /** The create call for the name at `i` makes it exist, and the later
      calls keep it. */
  lemma {:induction false} CreateAllMakesFolder(w: World, items: seq<string>, i: nat)
    requires i < |items| && !HasDot(items[i])
    ensures Exists(CreateAll(w, items).fs, Target(OutputRoot, items[i]))
  {
    var init := items[..|items| - 1];
    var before := CreateAll(w, init);
    if i == |items| - 1 {
      CreatedExists(before, items[i]);
    } else {
      assert init[i] == items[i];
      CreateAllMakesFolder(w, init, i);
      ExistsStays(before, CreateAll(w, items), Target(OutputRoot, items[i]));
    }
  }

  /** Names without a dot are only created as folders: no request goes out. */
  lemma {:induction false} CreateAllPlainNoRequests(w: World, items: seq<string>)
    requires forall i :: 0 <= i < |items| ==> !HasDot(items[i])
    ensures CreateAll(w, items).log == w.log && CreateAll(w, items).replies == w.replies
  {
    if items != [] {
      CreateAllPlainNoRequests(w, items[..|items| - 1]);
    }
  }

  /** A plain file name saved into `folder` lands directly inside the folder
      the create step made: its parent is that folder, up to one trailing
      separator, and the file path is longer than the folder path. */
  lemma ParentOfFilePath(folder: string, filename: string)
    requires filename != [] && '/' !in filename
    ensures var p, t := Parent(FilePath(folder, filename)), Target(OutputRoot, folder);
      p == t || p + "/" == t
    ensures |Target(OutputRoot, folder)| < |FilePath(folder, filename)|
  {
    var a := Join(OutputRoot, folder);
    var fp := FilePath(folder, filename);
    if a[|a| - 1] == '/' {
      assert fp == a + filename;
      ParentAfterSlash(a, filename);
      if folder == "" {
        assert a == "Output/";
        assert Parent(fp) == "Output";
      }
    } else {
      assert fp == a + "/" + filename;
      ParentOfJoin(a, filename);
    }
  }

  /** A save into a folder without a dot opens its file, so the file ends up
      holding the content, when the folder's path is no file, the file's
      path is no directory, and the name is a plain file name. */
  lemma SaveWritesFile(w: World, folder: string, filename: string, content: string)
    requires !HasDot(folder) && filename != [] && '/' !in filename
    requires Target(OutputRoot, folder) !in w.fs.files
    requires FilePath(folder, filename) !in w.fs.dirs && FilePath(folder, filename) + "/" !in w.fs.dirs
    ensures var r := SaveFileToOutput(w, folder, filename, content);
      FilePath(folder, filename) in r.fs.files && r.fs.files[FilePath(folder, filename)] == content
  {
    var r := SaveFileToOutput(w, folder, filename, content);
    var fp, t := FilePath(folder, filename), Target(OutputRoot, folder);
    ParentOfFilePath(folder, filename);
    assert t in r.fs.dirs;
    assert fp[|fp| - |filename|..] == filename;
    assert fp[|fp| - 1] == filename[|filename| - 1];
    assert filename[|filename| - 1] in filename;
    assert Writable(r.fs, fp);
  }

  /** How a run ends. */
  datatype Outcome =
    | NoArchitecture   // the architecture request failed or gave a false value
    | NotAnObject      // a true value that is not an object: showing it raises
    | InputClosed      // the console ran out before a decisive answer
    | Declined         // the proposal was not approved
    | ScaffoldError    // a scaffold list held a non-string: the walk raised
    | Completed

  /** `generate_software_files` (lines 137-170): create the root, walk the
      scaffold creating folders, then request and save every entry. */
  function Generate(w: World, scaffold: Value): (r: (Outcome, World))
    ensures r.0 == Completed || r.0 == ScaffoldError
    ensures r.0 == ScaffoldError <==> WalkScaffold(scaffold).crashed
    ensures Grows(w, r.1)
    ensures Exists(r.1.fs, OutputRoot)
  {
    var w1 := CreateFolderOrFile(w, OutputRoot, "");
    var walk := WalkScaffold(scaffold);
    var w2 := CreateAll(w1, walk.creates);
    CreateAllGrows(w1, walk.creates);
    if walk.crashed then (ScaffoldError, w2)
    else
      var w3 := ProcessEntries(w2, walk.entries);
      ProcessEntriesGrows(w2, walk.entries);
      (Completed, w3)
  }

  /** The scaffold's `file_scaffolding` member, an empty object when absent. */
  function ScaffoldOf(arch: Value): Value
    requires arch.Obj?
  {
    Get(arch.members, "file_scaffolding", Obj([]))
  }

  /** `main` (lines 263-287) after the description was read: `arch` is what
      the architecture request returned (`None` on a failed request or a
      reply that is not JSON) and `answers` the console lines. Nothing is
      created, written or requested unless the proposal is a non-empty
      object and the first decisive answer approves it. */
  function Main(arch: Option<Value>, answers: seq<string>, w: World): (r: (Outcome, World))
    ensures r.0 == NoArchitecture <==> arch == None || !Truthy(arch.value)
    ensures r.0 == NotAnObject <==> arch.Some? && Truthy(arch.value) && !arch.value.Obj?
    ensures r.0 == Declined <==> arch.Some? && arch.value.Obj? && Truthy(arch.value) && Approval.Verdict(answers) == Some(false)
    ensures r.0 == InputClosed <==> arch.Some? && arch.value.Obj? && Truthy(arch.value) && Approval.Verdict(answers) == None
    ensures r.0 == ScaffoldError <==>
      arch.Some? && arch.value.Obj? && Truthy(arch.value) && Approval.Verdict(answers) == Some(true)
      && WalkScaffold(ScaffoldOf(arch.value)).crashed
    ensures r.0 != Completed && r.0 != ScaffoldError ==> r.1 == w
    ensures Grows(w, r.1)
  {
    if arch == None || !Truthy(arch.value) then (NoArchitecture, w)
    else if !arch.value.Obj? then (NotAnObject, w)
    else
      match Approval.Verdict(answers)
      case None => (InputClosed, w)
      case Some(false) => (Declined, w)
      case Some(true) => Generate(w, ScaffoldOf(arch.value))
  }

  /** Creating the same folder twice leaves the world as creating it once. */
  lemma CreateTwice(w: World, path: string, item: string)
    requires !HasDot(item)
    ensures CreateFolderOrFile(CreateFolderOrFile(w, path, item), path, item) == CreateFolderOrFile(w, path, item)
  {
  }

  /** A name with a dot, created under the root, never becomes a directory. */
  lemma DottedItemIsNoFolder(w: World, item: string)
    requires HasDot(item)
    requires Target(OutputRoot, item) !in w.fs.dirs
    ensures Target(OutputRoot, item) !in CreateFolderOrFile(w, OutputRoot, item).fs.dirs
  {
    DottedTargetIsNotNestedRoot(item);
  }

  /** The target of a dotted name under the root is never `Output/Output`,
      the only folder a save under the root may add. */
  lemma DottedTargetIsNotNestedRoot(item: string)
    requires HasDot(item)
    ensures Target(OutputRoot, item) != Target(OutputRoot, OutputRoot)
  {
    RootHasNoDot();
    var t := Target(OutputRoot, item);
    assert Target(OutputRoot, OutputRoot) == "Output/Output";
    if item[0] != '/' {
      assert t == "Output/" + item;
    } else {
      assert t[0] == '/';
    }
  }

  /** Where a relative name under the root is checked, and where saving it
      as a file of the folder `OUTPUT_PATH` puts it. */
  lemma RootPaths(item: string)
    requires item != [] && item[0] != '/'
    ensures Target(OutputRoot, item) == "Output/" + item
    ensures FilePath(OutputRoot, item) == "Output/Output/" + item
    ensures Target(OutputRoot, OutputRoot) == "Output/Output"
    ensures Target(OutputRoot, item) != FilePath(OutputRoot, item)
    ensures FilePath(OutputRoot, item) != Target(OutputRoot, OutputRoot)
  {
    var twice := Join(OutputRoot, OutputRoot);
    assert twice == "Output/Output";
    assert Target(OutputRoot, item) == "Output/" + item;
    assert FilePath(OutputRoot, item) == twice + "/" + item;
    assert |FilePath(OutputRoot, item)| == |item| + 14;
  }

  /** A top-level key with a dot (say `README.md`) goes through the request
      branch of the create step, which saves it with
      `save_file_to_output(OUTPUT_PATH, key)`: the reply lands in
      `Output/Output/<key>` and the path that was checked stays absent. */
  lemma DottedKeySavedOneLevelDeeper(w: World, item: string)
    requires HasDot(item) && '/' !in item
    requires !Exists(w.fs, "Output/" + item)
    requires "Output/Output" !in w.fs.files
    requires "Output/Output/" + item !in w.fs.dirs && "Output/Output/" + item + "/" !in w.fs.dirs
    requires Usable(NextReply(w))
    ensures var r := CreateFolderOrFile(w, OutputRoot, item);
      && "Output/Output/" + item in r.fs.files
      && r.fs.files["Output/Output/" + item] == NextReply(w).value
      && !Exists(r.fs, "Output/" + item)
  {
    RootHasNoDot();
    assert item[0] in item;
    RootPaths(item);
    var (reply, w1) := Ask(w, OutputRoot, item);
    assert SaveFileToOutput(w1, OutputRoot, item, reply.value) == CreateFolderOrFile(w, OutputRoot, item);
    SaveWritesFile(w1, OutputRoot, item, reply.value);
    DottedItemIsNoFolder(w, item);
  }

  /** Hence the create step is not idempotent for such a key: a second call
      requests the same content again. */
  lemma DottedKeyRequestedAgain(w: World, item: string)
    requires HasDot(item) && '/' !in item
    requires !Exists(w.fs, "Output/" + item)
    requires "Output/Output" !in w.fs.files
    requires "Output/Output/" + item !in w.fs.dirs && "Output/Output/" + item + "/" !in w.fs.dirs
    requires Usable(NextReply(w))
    ensures var r := CreateFolderOrFile(w, OutputRoot, item);
      var again := CreateFolderOrFile(r, OutputRoot, item);
      |r.log| < |again.log| && again.log[|r.log|] == Request(OutputRoot, item)
  {
    DottedKeySavedOneLevelDeeper(w, item);
    assert item[0] in item;
    RootPaths(item);
    var r := CreateFolderOrFile(w, OutputRoot, item);
    assert !Exists(r.fs, Target(OutputRoot, item));
  }

  /** A file listed under a key with a dot (say `v1.0`) is never written:
      the create step for the key saves a file instead of making the folder,
      so `Output/<key>` is no directory and the open of
      `Output/<key>/<filename>` fails. Only the create step's own save
      changes a file. */
  lemma DottedFolderFileNotWritten(w: World, folder: string, filename: string, content: string)
    requires HasDot(folder) && '/' !in folder && '/' !in filename
    requires "Output/" + folder !in w.fs.dirs && "Output/" + folder + "/" !in w.fs.dirs
    ensures var r := SaveFileToOutput(w, folder, filename, content);
      && !IsDir(r.fs, "Output/" + folder)
      && r.fs.files == CreateFolderOrFile(w, OutputRoot, folder).fs.files
  {
    var w1 := CreateFolderOrFile(w, OutputRoot, folder);
    var fp := FilePath(folder, filename);
    DottedFolderPaths(folder, filename);
    DottedFolderIsNoDir(w, folder);
    assert !Writable(w1.fs, fp);
    assert SaveFileToOutput(w, folder, filename, content) == w1.(fs := Write(w1.fs, fp, content));
  }

  /** The create step for a dotted folder name leaves `Output/<folder>` no
      directory. */
  lemma DottedFolderIsNoDir(w: World, folder: string)
    requires HasDot(folder) && '/' !in folder
    requires "Output/" + folder !in w.fs.dirs && "Output/" + folder + "/" !in w.fs.dirs
    ensures !IsDir(CreateFolderOrFile(w, OutputRoot, folder).fs, "Output/" + folder)
  {
    var r := CreateFolderOrFile(w, OutputRoot, folder);
    var d, t := "Output/" + folder, Target(OutputRoot, OutputRoot);
    DottedDirIsNotNestedRoot(folder);
    assert r.fs.dirs <= w.fs.dirs + {t};
    assert d !in w.fs.dirs + {t} && d + "/" !in w.fs.dirs + {t};
  }

  /** The paths around a dotted folder name without separators: its folder
      is `Output/<folder>`, which is the parent of the file path. */
  lemma DottedFolderPaths(folder: string, filename: string)
    requires HasDot(folder) && '/' !in folder && '/' !in filename
    ensures Target(OutputRoot, folder) == "Output/" + folder
    ensures Parent(FilePath(folder, filename)) == "Output/" + folder
  {
    var dir := "Output/" + folder;
    assert Join(OutputRoot, folder) == dir by {
      assert folder[0] in folder;
    }
    assert FilePath(folder, filename) == dir + "/" + filename by {
      assert folder[|folder| - 1] in folder;
    }
    ParentOfJoin(dir, filename);
  }

  /** Neither spelling of a dotted folder's path is `Output/Output`, the one
      folder the create step's own save may add. */
  lemma DottedDirIsNotNestedRoot(folder: string)
    requires HasDot(folder) && '/' !in folder
    ensures "Output/" + folder != Target(OutputRoot, OutputRoot)
    ensures "Output/" + folder + "/" != Target(OutputRoot, OutputRoot)
  {
    var dir := "Output/" + folder;
    assert Target(OutputRoot, folder) == dir by {
      DottedFolderPaths(folder, "");
    }
    DottedTargetIsNotNestedRoot(folder);
    assert Target(OutputRoot, OutputRoot) == "Output/Output";
    if |dir + "/"| == 13 {
      assert (dir + "/")[12] == '/' && "Output/Output"[12] == 't';
    }
  }

  /** With no dot in any created name or entry folder, a completed run asks
      for every generation entry exactly once, in order, and for nothing else. */
  lemma GenerateRequestsEachEntryOnce(w: World, scaffold: Value)
    requires !WalkScaffold(scaffold).crashed
    requires forall i :: 0 <= i < |WalkScaffold(scaffold).creates| ==> !HasDot(WalkScaffold(scaffold).creates[i])
    requires PlainFolders(WalkScaffold(scaffold).entries)
    ensures Generate(w, scaffold).1.log == w.log + Requests(WalkScaffold(scaffold).entries)
  {
    var w1 := CreateFolderOrFile(w, OutputRoot, "");
    var walk := WalkScaffold(scaffold);
    CreateAllPlainNoRequests(w1, walk.creates);
    ProcessEntriesRequests(CreateAll(w1, walk.creates), walk.entries);
  }
}

=== FILE: approval.dfy ===
/**
 The approval gate: the console answer is trimmed and lower-cased, `yes`/`y`
 approves, `no`/`n` declines, anything else asks again. The console is a
 finite sequence of answer lines; running out of lines ends the prompt
 without a decision (Python's `input()` raises `EOFError` there).
 */
module Approval {
  import opened Base
  import opened Text

  datatype Answer = Approve | Decline | Reprompt

  /** One answer line (lines 112-118): trimmed, lower-cased, then compared
      with the tokens. */
  function Classify(raw: string): Answer
  {
    var t := Lower(Strip(raw));
    if t == "yes" || t == "y" then Approve
    else if t == "no" || t == "n" then Decline
    else Reprompt
  }

  /** An answer is decisive exactly when, whitespace aside, it is one of the
      four tokens in any mix of upper and lower case. */
  lemma ClassifyMeaning(raw: string)
    ensures Classify(raw) == Approve <==> SameIgnoringCase(Strip(raw), "yes") || SameIgnoringCase(Strip(raw), "y")
    ensures Classify(raw) == Decline <==> SameIgnoringCase(Strip(raw), "no") || SameIgnoringCase(Strip(raw), "n")
  {
    LowerMatchesToken(Strip(raw), "yes");
    LowerMatchesToken(Strip(raw), "y");
    LowerMatchesToken(Strip(raw), "no");
    LowerMatchesToken(Strip(raw), "n");
  }

  /** Comparing the lower-cased answer with a lower-case token is a
      case-insensitive comparison with that token. */
  lemma LowerMatchesToken(s: string, token: string)
    requires Lower(token) == token
    ensures Lower(s) == token <==> SameIgnoringCase(s, token)
  {
    if SameIgnoringCase(s, token) {
      forall i | 0 <= i < |s|
        ensures Lower(s)[i] == token[i]
      {
        assert LowerChar(token[i]) == Lower(token)[i];
      }
    }
    if Lower(s) == token {
      forall i | 0 <= i < |s|
        ensures LowerChar(s[i]) == LowerChar(token[i])
      {
        assert LowerChar(token[i]) == Lower(token)[i];
      }
    }
  }

  /** Index `i` holds the first decisive answer. */
  predicate FirstDecisiveAt(inputs: seq<string>, i: int)
  {
    && 0 <= i < |inputs|
    && Classify(inputs[i]) != Reprompt
    && forall j :: 0 <= j < i ==> Classify(inputs[j]) == Reprompt
  }

  /** `get_user_approval` over the console lines: the first decisive line
      decides; without one there is no decision. */
  function Verdict(inputs: seq<string>): Option<bool>
  {
    if inputs == [] then None
    else
      match Classify(inputs[0])
      case Approve => Some(true)
      case Decline => Some(false)
      case Reprompt => Verdict(inputs[1..])
  }

  /** There is no decision exactly when every line asks again; otherwise the
      first decisive line decides. */
  lemma {:induction false} VerdictFirstDecisive(inputs: seq<string>)
    ensures Verdict(inputs) == None <==> forall j :: 0 <= j < |inputs| ==> Classify(inputs[j]) == Reprompt
    ensures forall i :: FirstDecisiveAt(inputs, i) ==> Verdict(inputs) == Some(Classify(inputs[i]) == Approve)
  {
    if inputs != [] && Classify(inputs[0]) == Reprompt {
      VerdictFirstDecisive(inputs[1..]);
      forall i | FirstDecisiveAt(inputs, i)
        ensures FirstDecisiveAt(inputs[1..], i - 1)
      {
        forall j | 0 <= j < i - 1
          ensures Classify(inputs[1..][j]) == Reprompt
        {
          assert inputs[1..][j] == inputs[j + 1];
        }
      }
      if forall j :: 0 <= j < |inputs[1..]| ==> Classify(inputs[1..][j]) == Reprompt {
        forall j | 0 < j < |inputs|
          ensures Classify(inputs[j]) == Reprompt
        {
          assert inputs[j] == inputs[1..][j - 1];
        }
      }
    }
  }

  /** The prompt loop of `get_user_approval`: reads answer lines until one is
      decisive and reports how many lines it consumed. */
  method GetUserApproval(inputs: seq<string>) returns (approved: Option<bool>, read: nat)
    ensures approved == Verdict(inputs)
    ensures read <= |inputs|
    ensures approved.Some? ==> FirstDecisiveAt(inputs, read - 1)
    ensures approved.None? ==> read == |inputs|
  {
    read := 0;
    while read < |inputs| && Classify(inputs[read]) == Reprompt
      invariant read <= |inputs|
      invariant forall j :: 0 <= j < read ==> Classify(inputs[j]) == Reprompt
      invariant Verdict(inputs[read..]) == Verdict(inputs)
    {
      assert inputs[read..][1..] == inputs[read + 1..];
      read := read + 1;
    }
    if read < |inputs| {
      assert inputs[read..][0] == inputs[read];
      approved := Some(Classify(inputs[read]) == Approve);
      read := read + 1;
    } else {
      approved := None;
    }
  }

  lemma SpaceCaseAgree(a: char, b: char)
    requires LowerChar(a) == LowerChar(b)
    ensures IsSpace(a) <==> IsSpace(b)
  {
  }

  /** The classification does not depend on letter case. */
  lemma ClassifyIgnoresCase(s: string, t: string)
    requires SameIgnoringCase(s, t)
    ensures Classify(s) == Classify(t)
  {
    forall i | 0 <= i < |s|
      ensures IsSpace(s[i]) <==> IsSpace(t[i])
    {
      SpaceCaseAgree(s[i], t[i]);
    }
    var e := EndCut(s, |s|);
    EndCutSpec(s, |s|);
    EndCutUnique(t, |t|, e);
    var b := StartCut(s, 0, e);
    StartCutSpec(s, 0, e);
    StartCutUnique(t, 0, e, b);
    assert Lower(Strip(s)) == Lower(Strip(t));
  }

  /** The classification does not depend on surrounding whitespace. */
  lemma ClassifyIgnoresPadding(p: string, t: string, q: string)
    requires AllSpace(p) && AllSpace(q) && Stripped(t)
    ensures Classify(p + t + q) == Classify(t)
  {
    StripPadding(p, t, q);
    StripStripped(t);
  }

  /** Sample answers: padding and capitals do not matter, prefixes of a token do not count. */
  lemma ClassifyExamples()
    ensures Classify(" Yes\n") == Approve
    ensures Classify("N") == Decline
    ensures Classify("yeah") == Reprompt
  {
    ClassifyIgnoresPadding(" ", "Yes", "\n");
    assert " " + "Yes" + "\n" == " Yes\n";
    StripStripped("Yes");
    assert Lower("Yes") == "yes";
    StripStripped("N");
    assert Lower("N") == "n";
    StripStripped("yeah");
    assert Lower("yeah") == "yeah";
  }

  /** A run of answers: the first decisive one wins, later ones are never read. */
  lemma ApprovalExample()
    ensures Verdict(["maybe", "NO", "yes"]) == Some(false)
  {
    var inputs := ["maybe", "NO", "yes"];
    StripStripped("maybe");
    assert Lower("maybe") == "maybe";
    assert Classify(inputs[0]) == Reprompt;
    StripStripped("NO");
    assert Lower("NO") == "no";
    assert Classify(inputs[1]) == Decline;
    assert FirstDecisiveAt(inputs, 1);
  }

  lemma ClassifyEmpty()
    ensures Classify("") == Reprompt
  {
    StripStripped("");
  }

  lemma ClassifyLater()
    ensures Classify("later") == Reprompt
  {
    StripStripped("later");
    assert Lower("later") == "later";
  }

  /** Answers that never decide leave the gate without a decision. */
  lemma UndecidedExample()
    ensures Verdict(["", "later"]) == None
  {
    var inputs := ["", "later"];
    ClassifyEmpty();
    ClassifyLater();
    assert Classify(inputs[0]) == Reprompt && Classify(inputs[1]) == Reprompt;
  }
}

=== FILE: base.dfy ===
/** Small shared vocabulary: an optional value, used for replies that may be missing. */
module Base {

  /** A value that may be absent (Python's `None`). */
  datatype Option<+T> = None | Some(value: T)
}

=== FILE: filesystem.dfy ===
/**
 The local output tree as the agent sees it: path strings built with
 `os.path.join`, a set of existing directories and a map from file paths
 to their text. Paths are compared as strings, with no normalisation.
 */
module FileSystem {

  /** The fixed output root, `OUTPUT_PATH`. */
  const OutputRoot: string := "Output"

  /** `posixpath.join(a, b)` for two arguments: an absolute `b` replaces
      `a`; otherwise a separator is inserted unless `a` is empty or already
      ends in one. */
  function Join(a: string, b: string): (r: string)
    ensures |b| <= |r| && r[|r| - |b|..] == b
    ensures (b == [] || b[0] != '/') ==> |a| <= |r| && r[..|a|] == a
    ensures (b == [] || b[0] != '/') && a != [] && a[|a| - 1] != '/' ==> r == a + "/" + b
  {
    if b != [] && b[0] == '/' then b
    else if a == [] || a[|a| - 1] == '/' then a + b
    else a + "/" + b
  }

  /** The abstract filesystem. */
  datatype Fs = Fs(dirs: set<string>, files: map<string, string>)

  /** `os.path.exists`: a directory or a file is there. */
  predicate Exists(fs: Fs, p: string)
  {
    p in fs.dirs || p in fs.files
  }

  /** `os.makedirs(p)`: only the path itself is recorded. */
  function MakeDirs(fs: Fs, p: string): (r: Fs)
    ensures r.dirs == fs.dirs + {p} && r.files == fs.files
  {
    fs.(dirs := fs.dirs + {p})
  }

  /** The part of `p` before its last separator; empty when there is none
      (the working directory) or when `p` sits directly under `/`. */
  function Parent(p: string): string
  {
    if p == [] then []
    else if p[|p| - 1] == '/' then p[..|p| - 1]
    else Parent(p[..|p| - 1])
  }

  /** `d` names a directory, possibly spelt with one trailing separator as
      `os.makedirs` was given it. The empty name is the working directory. */
  predicate IsDir(fs: Fs, d: string)
  {
    d == [] || d in fs.dirs || d + "/" in fs.dirs
  }

  /** `open(p, "w")` succeeds: `p` names no directory, does not end in a
      separator, and its parent folder exists. */
  predicate Writable(fs: Fs, p: string)
  {
    && p != [] && p[|p| - 1] != '/'
    && p !in fs.dirs && p + "/" !in fs.dirs
    && IsDir(fs, Parent(p))
  }

  /** A file name without separators sits directly in the folder it is
      joined to. */
  lemma {:induction false} ParentOfJoin(a: string, name: string)
    requires '/' !in name
    ensures Parent(a + "/" + name) == a
  {
    if name != [] {
      var init := name[..|name| - 1];
      assert (a + "/" + name)[..|a + "/" + name| - 1] == a + "/" + init;
      assert name[|name| - 1] in name;
      ParentOfJoin(a, init);
    } else {
      assert a + "/" + name == a + "/";
    }
  }

  /** A name appended after a trailing separator sits in the folder the
      separator closes. */
  lemma {:induction false} ParentAfterSlash(a: string, name: string)
    requires a != [] && a[|a| - 1] == '/' && '/' !in name
    ensures Parent(a + name) + "/" == a
  {
    if name != [] {
      var init := name[..|name| - 1];
      assert (a + name)[..|a + name| - 1] == a + init;
      assert name[|name| - 1] in name;
      ParentAfterSlash(a, init);
    } else {
      assert a + name == a;
      assert a[..|a| - 1] + [a[|a| - 1]] == a;
    }
  }

  /** `open(p, "w").write(content)`: when the open succeeds the file gets
      exactly `content`, whatever it held before; when it fails (a directory,
      a missing parent folder) the caller only reports it and nothing
      changes. */
  function Write(fs: Fs, p: string, content: string): (r: Fs)
    ensures r.dirs == fs.dirs
    ensures Writable(fs, p) ==> p in r.files && r.files[p] == content
    ensures !Writable(fs, p) ==> r.files == fs.files
    ensures r.files - {p} == fs.files - {p}
  {
    if Writable(fs, p) then fs.(files := fs.files[p := content]) else fs
  }
}

=== FILE: json.dfy ===
/**
 The value `json.loads` hands back, as far as the agent inspects it: Python's
 truthiness test and `dict.get` with a default.
 */
module Json {

  /** A parsed JSON value. An object keeps its members in insertion order,
      as a Python dict iterates them, and its member names are taken to be
      distinct, as the keys of a dict are; a number is kept as a real. */
  datatype Value =
    | Null
    | Bool(b: bool)
    | Num(n: real)
    | Str(s: string)
    | Arr(items: seq<Value>)
    | Obj(members: seq<(string, Value)>)

  /** Python truthiness: `None`, `False`, zero, `""`, `[]` and `{}` are false. */
  predicate Truthy(v: Value)
  {
    match v
    case Null => false
    case Bool(b) => b
    case Num(n) => n != 0.0
    case Str(s) => s != ""
    case Arr(xs) => xs != []
    case Obj(ms) => ms != []
  }

  /** True iff `key` is one of the member names. */
  predicate HasKey(members: seq<(string, Value)>, key: string)
  {
    exists i :: 0 <= i < |members| && members[i].0 == key
  }

  /** `d.get(key, default)`: the value of the first member named `key`,
      or `default` when there is none. */
  function Get(members: seq<(string, Value)>, key: string, default: Value): (r: Value)
    ensures !HasKey(members, key) ==> r == default
    ensures HasKey(members, key) ==>
      exists i :: 0 <= i < |members| && members[i] == (key, r)
                  && forall j :: 0 <= j < i ==> members[j].0 != key
  {
    if members == [] then default
    else if members[0].0 == key then
      assert members[0] == (key, members[0].1);
      members[0].1
    else
      var r := Get(members[1..], key, default);
      assert HasKey(members, key) ==>
        exists i :: 0 <= i < |members| && members[i] == (key, r)
                    && forall j :: 0 <= j < i ==> members[j].0 != key
      by {
        if HasKey(members, key) {
          var i :| 0 <= i < |members| && members[i].0 == key;
          assert members[1..][i - 1].0 == key;
          var k :| 0 <= k < |members[1..]| && members[1..][k] == (key, r)
                   && forall j :: 0 <= j < k ==> members[1..][j].0 != key;
          assert members[k + 1] == (key, r);
        }
      }
      r
  }
}

=== FILE: scaffold.dfy ===
/**
 The walk `generate_software_files` makes over the `file_scaffolding` value
 (execute.py:140-161), separated from its effects. The walk decides, in
 order, which names are handed to the create step directly under the
 output root, and which (folder, filename) pairs are later requested one
 by one. A list element that is not a string makes `str.rstrip` raise;
 the walk then stops, and only the create calls made before it took effect.
 */
module Scaffold {
  import opened Json
  import opened Text

  /** One entry of the generation list. */
  datatype Entry = Entry(folder: string, filename: string)

  /** The outcome of the walk: the names given to the create step, in call
      order; the generation list; whether the walk stopped on a bad element. */
  datatype Walk = Walk(creates: seq<string>, entries: seq<Entry>, crashed: bool)

  /** A list holding an element that is not a string. */
  predicate BadList(v: Value)
  {
    v.Arr? && exists j :: 0 <= j < |v.items| && !v.items[j].Str?
  }

  /** The generation entries for the names in `items`, all in `folder`,
      with trailing slashes removed; `crashed` at the first non-string. */
  function ListEntries(folder: string, items: seq<Value>): (seq<Entry>, bool)
  {
    if items == [] then ([], false)
    else match items[0]
      case Str(name) =>
        var rest := ListEntries(folder, items[1..]);
        ([Entry(folder, RStripSlash(name))] + rest.0, rest.1)
      case _ => ([], true)
  }

  /** The list walk stops exactly at a non-string; otherwise it yields one
      entry per name, in list order, with trailing slashes removed. */
  lemma {:induction false} ListEntriesSpec(folder: string, items: seq<Value>)
    ensures ListEntries(folder, items).1 <==> BadList(Arr(items))
    ensures !BadList(Arr(items)) ==>
      var es := ListEntries(folder, items).0;
      |es| == |items|
      && forall j :: 0 <= j < |items| ==> es[j] == Entry(folder, RStripSlash(items[j].s))
  {
    if items != [] && items[0].Str? {
      ListEntriesSpec(folder, items[1..]);
      if BadList(Arr(items)) {
        var j :| 0 <= j < |items| && !items[j].Str?;
        assert items[1..][j - 1] == items[j];
      }
      if BadList(Arr(items[1..])) {
        var j :| 0 <= j < |items[1..]| && !items[1..][j].Str?;
        assert items[j + 1] == items[1..][j];
      }
      if !BadList(Arr(items)) {
        var es := ListEntries(folder, items).0;
        forall j | 0 <= j < |items|
          ensures es[j] == Entry(folder, RStripSlash(items[j].s))
        {
          if j > 0 { assert items[1..][j - 1] == items[j]; }
        }
      }
    }
  }

  /** The names of an object's members, in order. */
  function Keys(members: seq<(string, Value)>): (ks: seq<string>)
    ensures |ks| == |members|
    ensures forall i :: 0 <= i < |members| ==> ks[i] == members[i].0
  {
    if members == [] then [] else [members[0].0] + Keys(members[1..])
  }

  /** The contribution of one `folder: files` member (lines 145-154): the
      folder is created; a list adds its names, a nested object only creates
      its keys directly under the root, any other value adds nothing. */
  function WalkMember(folder: string, files: Value): Walk
  {
    match files
    case Arr(items) =>
      var (es, bad) := ListEntries(folder, items);
      Walk([folder], es, bad)
    case Obj(inner) => Walk([folder] + Keys(inner), [], false)
    case _ => Walk([folder], [], false)
  }

  /** What one member contributes: it always creates its key; a list adds
      one entry per name in order, or stops at a non-string; a nested object
      creates its inner keys and adds no entry; any other value adds nothing. */
  lemma WalkMemberSpec(folder: string, files: Value)
    ensures WalkMember(folder, files).crashed <==> BadList(files)
    ensures !files.Arr? ==> WalkMember(folder, files).entries == []
    ensures files.Obj? ==> WalkMember(folder, files).creates == [folder] + Keys(files.members)
    ensures !files.Obj? ==> WalkMember(folder, files).creates == [folder]
    ensures files.Arr? && !BadList(files) ==>
      var es := WalkMember(folder, files).entries;
      |es| == |files.items|
      && forall j :: 0 <= j < |files.items| ==> es[j] == Entry(folder, RStripSlash(files.items[j].s))
  {
    if files.Arr? {
      ListEntriesSpec(folder, files.items);
    }
  }

  /** Some member's value is a list holding a non-string. */
  predicate AnyBadList(members: seq<(string, Value)>)
  {
    exists i :: 0 <= i < |members| && BadList(members[i].1)
  }

  /** The walk over an object's members in insertion order; it stops after
      the first member whose list holds a non-string. */
  function WalkMembers(members: seq<(string, Value)>): Walk
  {
    if members == [] then Walk([], [], false)
    else
      var head := WalkMember(members[0].0, members[0].1);
      if head.crashed then head
      else
        var rest := WalkMembers(members[1..]);
        Walk(head.creates + rest.creates, head.entries + rest.entries, rest.crashed)
  }

  /** The walk stops exactly when some member's value is a list holding a
      non-string. */
  lemma {:induction false} WalkMembersCrash(members: seq<(string, Value)>)
    ensures WalkMembers(members).crashed <==> AnyBadList(members)
  {
    if members != [] {
      WalkMemberSpec(members[0].0, members[0].1);
      WalkMembersCrash(members[1..]);
      if AnyBadList(members) {
        var i :| 0 <= i < |members| && BadList(members[i].1);
        if i > 0 { assert members[1..][i - 1] == members[i]; }
      }
      if AnyBadList(members[1..]) {
        var i :| 0 <= i < |members[1..]| && BadList(members[1..][i].1);
        assert members[i + 1] == members[1..][i];
      }
    }
  }

  /** The whole scaffold (lines 144-161): an object is walked member by
      member; a flat list yields `("", name)` per element with no create
      calls; any other value yields nothing. */
  function WalkScaffold(scaffold: Value): (w: Walk)
    ensures scaffold.Obj? ==> w == WalkMembers(scaffold.members)
    ensures scaffold.Arr? ==> w.creates == [] && (w.crashed <==> BadList(scaffold))
    ensures scaffold.Arr? && !w.crashed ==>
      |w.entries| == |scaffold.items|
      && forall j :: 0 <= j < |scaffold.items| ==> w.entries[j] == Entry("", RStripSlash(scaffold.items[j].s))
    ensures !scaffold.Obj? && !scaffold.Arr? ==> w == Walk([], [], false)
  {
    match scaffold
    case Obj(members) => WalkMembers(members)
    case Arr(items) =>
      var (es, bad) := ListEntries("", items);
      ListEntriesSpec("", items);
      Walk([], es, bad)
    case _ => Walk([], [], false)
  }

  /** Walking two runs of members one after the other is walking their
      concatenation: the order of keys is the order of the results. */
  lemma WalkMembersAppend(a: seq<(string, Value)>, b: seq<(string, Value)>)
    requires !WalkMembers(a).crashed
    ensures WalkMembers(a + b).creates == WalkMembers(a).creates + WalkMembers(b).creates
    ensures WalkMembers(a + b).entries == WalkMembers(a).entries + WalkMembers(b).entries
    ensures WalkMembers(a + b).crashed == WalkMembers(b).crashed
  {
    AppendCreates(a, b);
    AppendEntries(a, b);
    AppendCrash(a, b);
  }

  /** One step of the walk over members that does not stop at the first. */
  lemma WalkMembersCons(m: seq<(string, Value)>)
    requires m != [] && !WalkMember(m[0].0, m[0].1).crashed
    ensures WalkMembers(m).creates == WalkMember(m[0].0, m[0].1).creates + WalkMembers(m[1..]).creates
    ensures WalkMembers(m).entries == WalkMember(m[0].0, m[0].1).entries + WalkMembers(m[1..]).entries
    ensures WalkMembers(m).crashed == WalkMembers(m[1..]).crashed
  {
  }

  lemma {:induction false} AppendCreates(a: seq<(string, Value)>, b: seq<(string, Value)>)
    requires !WalkMembers(a).crashed
    ensures WalkMembers(a + b).creates == WalkMembers(a).creates + WalkMembers(b).creates
  {
    if a == [] {
      assert a + b == b;
    } else {
      assert (a + b)[0] == a[0];
      assert (a + b)[1..] == a[1..] + b;
      WalkMembersCons(a);
      WalkMembersCons(a + b);
      AppendCreates(a[1..], b);
      var head := WalkMember(a[0].0, a[0].1).creates;
      var tail, second := WalkMembers(a[1..]).creates, WalkMembers(b).creates;
      assert head + (tail + second) == (head + tail) + second;
    }
  }

  lemma {:induction false} AppendEntries(a: seq<(string, Value)>, b: seq<(string, Value)>)
    requires !WalkMembers(a).crashed
    ensures WalkMembers(a + b).entries == WalkMembers(a).entries + WalkMembers(b).entries
  {
    if a == [] {
      assert a + b == b;
    } else {
      assert (a + b)[0] == a[0];
      assert (a + b)[1..] == a[1..] + b;
      WalkMembersCons(a);
      WalkMembersCons(a + b);
      AppendEntries(a[1..], b);
      var head := WalkMember(a[0].0, a[0].1).entries;
      var tail, second := WalkMembers(a[1..]).entries, WalkMembers(b).entries;
      assert head + (tail + second) == (head + tail) + second;
    }
  }

  lemma {:induction false} AppendCrash(a: seq<(string, Value)>, b: seq<(string, Value)>)
    requires !WalkMembers(a).crashed
    ensures WalkMembers(a + b).crashed == WalkMembers(b).crashed
  {
    if a == [] {
      assert a + b == b;
    } else {
      assert (a + b)[0] == a[0];
      assert (a + b)[1..] == a[1..] + b;
      AppendCrash(a[1..], b);
    }
  }

  /** Total number of names in the members whose value is a list. */
  function ListedNames(members: seq<(string, Value)>): nat
  {
    if members == [] then 0
    else (if members[0].1.Arr? then |members[0].1.items| else 0) + ListedNames(members[1..])
  }

  /** Without a bad list, the generation list has one entry per listed name. */
  lemma {:induction false} WalkMembersCount(members: seq<(string, Value)>)
    requires !AnyBadList(members)
    ensures |WalkMembers(members).entries| == ListedNames(members)
  {
    if members != [] {
      assert !BadList(members[0].1);
      WalkMemberSpec(members[0].0, members[0].1);
      WalkMembersCount(members[1..]);
    }
  }

  /** An entry is generated exactly when its folder is a key whose list
      holds a name that strips to its filename. */
  lemma {:induction false} WalkMembersEntries(members: seq<(string, Value)>, e: Entry)
    requires !AnyBadList(members)
    ensures e in WalkMembers(members).entries <==>
      exists i, j :: 0 <= i < |members| && members[i].1.Arr? && 0 <= j < |members[i].1.items|
                     && e == Entry(members[i].0, RStripSlash(members[i].1.items[j].s))
  {
    if members != [] {
      var head := WalkMember(members[0].0, members[0].1);
      assert !BadList(members[0].1);
      WalkMemberSpec(members[0].0, members[0].1);
      WalkMembersEntries(members[1..], e);
      var here :=
        members[0].1.Arr?
        && exists j :: 0 <= j < |members[0].1.items| && e == Entry(members[0].0, RStripSlash(members[0].1.items[j].s));
      assert e in head.entries <==> here by {
        if e in head.entries {
          var j :| 0 <= j < |head.entries| && head.entries[j] == e;
        }
      }
      if e in WalkMembers(members).entries {
        if e in head.entries {
          assert members[0].1.Arr?;
          var j :| 0 <= j < |members[0].1.items|
                   && e == Entry(members[0].0, RStripSlash(members[0].1.items[j].s));
          assert members[0].1.items[j] == members[0].1.items[j];
        } else {
          var i, j :| 0 <= i < |members[1..]| && members[1..][i].1.Arr? && 0 <= j < |members[1..][i].1.items|
                      && e == Entry(members[1..][i].0, RStripSlash(members[1..][i].1.items[j].s));
          assert members[i + 1] == members[1..][i];
        }
      }
      if exists i, j :: 0 <= i < |members| && members[i].1.Arr? && 0 <= j < |members[i].1.items|
                        && e == Entry(members[i].0, RStripSlash(members[i].1.items[j].s)) {
        var i, j :| 0 <= i < |members| && members[i].1.Arr? && 0 <= j < |members[i].1.items|
                    && e == Entry(members[i].0, RStripSlash(members[i].1.items[j].s));
        if i == 0 {
          assert head.entries[j] == e;
        } else {
          assert members[1..][i - 1] == members[i];
        }
      }
    }
  }

  /** Members whose values are not lists add no entries, only create calls. */
  lemma {:induction false} NoListsNoEntries(members: seq<(string, Value)>)
    requires forall i :: 0 <= i < |members| ==> !members[i].1.Arr?
    ensures WalkMembers(members).entries == []
    ensures !WalkMembers(members).crashed
  {
    if members != [] {
      NoListsNoEntries(members[1..]);
    }
  }

  /** A mapping of folders to lists, such as
      `{"src": ["main.py", "utils.py/"], "docs": []}`: both folders are
      created and the list's names are requested in order. */
  lemma MappingExample()
    ensures
      var w := WalkScaffold(Obj([("src", Arr([Str("main.py"), Str("utils.py/")])), ("docs", Arr([]))]));
      && w.creates == ["src", "docs"]
      && w.entries == [Entry("src", "main.py"), Entry("src", "utils.py")]
      && !w.crashed
  {
    var src := ("src", Arr([Str("main.py"), Str("utils.py/")]));
    var docs := ("docs", Arr([]));
    assert [src, docs] == [src] + [docs];
    AppendCreates([src], [docs]);
    AppendEntries([src], [docs]);
    AppendCrash([src], [docs]);
    assert "utils.py/"[..8] == "utils.py";
    assert RStripSlash("utils.py/") == "utils.py";
    assert RStripSlash("main.py") == "main.py";
  }

  /** A flat list: every element, with or without a dot, becomes a file
      request in the root folder. */
  lemma FlatListExample()
    ensures
      var w := WalkScaffold(Arr([Str("readme.md"), Str("config")]));
      && w.creates == []
      && w.entries == [Entry("", "readme.md"), Entry("", "config")]
      && !w.crashed
  {
    assert RStripSlash("readme.md") == "readme.md";
    assert RStripSlash("config") == "config";
  }
}

=== FILE: text.dfy ===
/**
 The string operations the agent applies to names and to console answers:
 `str.strip()` (Python's whitespace set), `str.lower()` (on ASCII letters)
 and `str.rstrip("/")`.
 */
module Text {

  /** The characters Python's `str.isspace()` accepts. */
  predicate IsSpace(c: char)
  {
    || c == ' ' || c == '\t' || c == '\n' || c == '\r' || c == '\U{B}' || c == '\U{C}'
    || ('\U{1C}' <= c <= '\U{1F}')
    || c == '\U{85}' || c == '\U{A0}' || c == '\U{1680}'
    || ('\U{2000}' <= c <= '\U{200A}')
    || c == '\U{2028}' || c == '\U{2029}' || c == '\U{202F}' || c == '\U{205F}' || c == '\U{3000}'
  }

  predicate AllSpace(s: string)
  {
    forall i :: 0 <= i < |s| ==> IsSpace(s[i])
  }

  /** A string with no whitespace at either end (what `strip` returns). */
  predicate Stripped(s: string)
  {
    s == [] || (!IsSpace(s[0]) && !IsSpace(s[|s| - 1]))
  }

  /** The end of `s[..n]` once its trailing whitespace is cut off. */
  function EndCut(s: string, n: nat): nat
    requires n <= |s|
  {
    if n == 0 || !IsSpace(s[n - 1]) then n else EndCut(s, n - 1)
  }

  /** Everything between the trailing cut and `n` is whitespace; the
      character just before the cut is not. */
  lemma {:induction false} EndCutSpec(s: string, n: nat)
    requires n <= |s|
    ensures EndCut(s, n) <= n
    ensures forall i :: EndCut(s, n) <= i < n ==> IsSpace(s[i])
    ensures EndCut(s, n) == 0 || !IsSpace(s[EndCut(s, n) - 1])
  {
    if n > 0 && IsSpace(s[n - 1]) {
      EndCutSpec(s, n - 1);
    }
  }

  /** The start of `s[m..e]` once its leading whitespace is cut off. */
  function StartCut(s: string, m: nat, e: nat): nat
    requires m <= e <= |s|
    decreases e - m
  {
    if m == e || !IsSpace(s[m]) then m else StartCut(s, m + 1, e)
  }

  /** Everything between `m` and the leading cut is whitespace; the character
      at the cut, if any, is not. */
  lemma {:induction false} StartCutSpec(s: string, m: nat, e: nat)
    requires m <= e <= |s|
    ensures m <= StartCut(s, m, e) <= e
    ensures forall i :: m <= i < StartCut(s, m, e) ==> IsSpace(s[i])
    ensures StartCut(s, m, e) == e || !IsSpace(s[StartCut(s, m, e)])
    decreases e - m
  {
    if m < e && IsSpace(s[m]) {
      StartCutSpec(s, m + 1, e);
    }
  }

  /** `s.strip()`: the slice between the leading and the trailing whitespace. */
  function Strip(s: string): string
  {
    var e := EndCut(s, |s|);
    EndCutSpec(s, |s|);
    StartCutSpec(s, 0, e);
    s[StartCut(s, 0, e)..e]
  }

  /** `c.lower()` for ASCII letters; every other character is kept. */
  function LowerChar(c: char): char
  {
    if 'A' <= c <= 'Z' then (c as int - 'A' as int + 'a' as int) as char else c
  }

  function Lower(s: string): (r: string)
    ensures |r| == |s|
  {
    seq(|s|, i requires 0 <= i < |s| => LowerChar(s[i]))
  }

  /** Two strings that differ only in the case of ASCII letters. */
  predicate SameIgnoringCase(s: string, t: string)
  {
    |s| == |t| && forall i :: 0 <= i < |s| ==> LowerChar(s[i]) == LowerChar(t[i])
  }

  /** `s.rstrip("/")`: removes the whole (possibly empty) run of trailing
      slashes and nothing else, so the result never ends in a slash. */
  function RStripSlash(s: string): (r: string)
    ensures |r| <= |s| && r == s[..|r|]
    ensures forall i :: |r| <= i < |s| ==> s[i] == '/'
    ensures r == [] || r[|r| - 1] != '/'
  {
    if s != [] && s[|s| - 1] == '/' then RStripSlash(s[..|s| - 1]) else s
  }

  /** `"." in s` */
  predicate HasDot(s: string)
  {
    '.' in s
  }

  /** Stripping slashes a second time changes nothing. */
  lemma RStripSlashIdempotent(s: string)
    ensures RStripSlash(RStripSlash(s)) == RStripSlash(s)
  {
  }

  /** A prefix that differs from `s` only by trailing slashes strips to the same name. */
  lemma {:induction false} RStripSlashIgnoresSlashes(t: string, k: nat)
    ensures RStripSlash(t + seq(k, _ => '/')) == RStripSlash(t)
  {
    if k > 0 {
      var u := t + seq(k, _ => '/');
      assert u[..|u| - 1] == t + seq(k - 1, _ => '/');
      RStripSlashIgnoresSlashes(t, k - 1);
    } else {
      assert t + seq(k, _ => '/') == t;
    }
  }

  /** The cut points are the only ones with their defining property. */
  lemma EndCutUnique(s: string, n: nat, k: nat)
    requires k <= n <= |s|
    requires forall i :: k <= i < n ==> IsSpace(s[i])
    requires k == 0 || !IsSpace(s[k - 1])
    ensures EndCut(s, n) == k
  {
    EndCutSpec(s, n);
  }

  lemma StartCutUnique(s: string, m: nat, e: nat, k: nat)
    requires m <= k <= e <= |s|
    requires forall i :: m <= i < k ==> IsSpace(s[i])
    requires k == e || !IsSpace(s[k])
    ensures StartCut(s, m, e) == k
  {
    StartCutSpec(s, m, e);
  }

  /** `strip` removes exactly the whitespace around a stripped core:
      whatever is padded on either side of `t` comes back as `t`. */
  lemma StripPadding(p: string, t: string, q: string)
    requires AllSpace(p) && AllSpace(q) && Stripped(t)
    ensures Strip(p + t + q) == t
  {
    var u := p + t + q;
    var k := if t == [] then 0 else |p| + |t|;
    var m := if t == [] then 0 else |p|;
    forall i | k <= i < |u|
      ensures IsSpace(u[i])
    {
      if i < |p| { assert u[i] == p[i]; } else { assert u[i] == q[i - |p| - |t|]; }
    }
    if t != [] {
      assert u[k - 1] == t[|t| - 1];
      assert u[m] == t[0];
      forall i | 0 <= i < m
        ensures IsSpace(u[i])
      {
        assert u[i] == p[i];
      }
    }
    EndCutUnique(u, |u|, k);
    StartCutUnique(u, 0, k, m);
    assert u[m..k] == t;
  }

  /** A string with no whitespace at either end is its own `strip`. */
  lemma StripStripped(t: string)
    requires Stripped(t)
    ensures Strip(t) == t
  {
    StripPadding([], t, []);
    assert [] + t + [] == t;
  }
}
